=== FILE: README.md ===
# Gammy brightness control loop: a Dafny model

Gammy adjusts the screen's brightness based on what is on screen. It samples
the screen's average luminance, picks a target brightness from it, and ramps
the live brightness toward that target one unit at a time. This project
models the integer logic of the two threads in `src/main.cpp` that do this:

- **decision loop** (`app`): takes one iteration of its polling loop as a
  pure step on the controller state. The state holds the image brightness,
  the accumulated change, the target, the generation counter `callcnt`, the
  `force` flag, the previous sample and bounds, and the one-time guard;
- **ramp loop** (`adjustBrightness`): covers the pacing value, the one-unit
  step, the inner loop, and its generation-based cancellation;
- **both loops together**: a labelled transition system whose events are
  the atomic steps of either thread. Each loop tests `quit` at its top as
  a separate event, so an iteration that has passed the test still runs
  even if `quit` is set in the meantime, as in the source. In the same way
  the decision loop's pause wait for `run` (lines 188-191) is an event of
  its own: an iteration that has passed it samples, decides and signals even
  if `run` is cleared during its sleep. External actions are events too:
  pause/resume, a termination signal, and a forced recompute from the window.

Files:

- `cint.dfy` (module `CInt`): C++ truncating integer division and `abs`.
- `controller.dfy` (module `Controller`): the clamp, the accumulation, the
  decision, one iteration (`Cycle`), and runs of iterations.
- `actuator.dfy` (module `Actuator`): pacing, the unit step, and one ramp
  iteration (`RampIter`). `Ramp` is the inner loop, run over a sequence of
  snapshots of the shared state, one snapshot per iteration.
- `control_loop.dfy` (module `ControlLoop`): the interleaving of both loops,
  its invariant, and the generation and shutdown properties.

The configuration values (`MinBr`, `MaxBr`, `Offset`, `Threshold`, `Speed`)
and `default_brightness` are defined in headers that are not part of this
model. They are plain integer inputs here. The luminance sample is an
arbitrary integer.

## Model

| member | source | states |
|---|---|---|
| CInt.Div | src/main.cpp:89 | the quotient is C++ truncation toward zero: the magnitude is the floor of the magnitudes, and the sign follows the operand signs |
| CInt.DivAgreesOnNatural | src/main.cpp:89 | on a non-negative numerator and a positive divisor, truncation agrees with Dafny's Euclidean division |
| CInt.DivOddInNumerator | src/main.cpp:89 | truncating division is symmetric about zero (this separates it from floor or Euclidean division) |
| CInt.DivMonotone | src/main.cpp:89 | for a positive divisor the quotient is monotone in the numerator |
| CInt.DivShrinks | src/main.cpp:89 | dividing a non-negative value by at least 1 gives a value between 0 and the original |
| Controller.TargetCompensates | src/main.cpp:219-227 | with consistent bounds a brighter sample never gives a brighter target; the target moves by at most as much as the sample, and by exactly as much in the opposite direction while both raw targets are in range |
| Controller.CrossedBoundsInvertTarget | src/main.cpp:219-227 | with crossed bounds (MinBr 50, MaxBr 20) the law fails: default 100 gives target 20 for sample 10 but 50 for the brighter sample 90 |
| Controller.Clamp | src/main.cpp:219-227 | with MinBr <= MaxBr the target is in [MinBr, MaxBr]; it equals the raw value iff the raw value is in range; a raw value above MaxBr gives MaxBr whatever MinBr is |
| Controller.ClampIsMedian | src/main.cpp:219-227 | with consistent bounds the clamp equals max(MinBr, min(raw, MaxBr)) |
| Controller.ClampCrossedBounds | src/main.cpp:221-227 | with MaxBr < MinBr the upper test wins: the result is MaxBr for a raw value above it and MinBr otherwise |
| Controller.Accumulate | src/main.cpp:213-215 | the change is zero on the first iteration; afterwards it grows by exactly the absolute difference to the previous sample |
| Controller.Decide | src/main.cpp:219-245 | the trigger branch adopts a clamped target. If it differs from the live brightness, the generation goes up by one and the change is kept. If it equals it, the generation is unchanged and the change is reset. Force is cleared and nothing else changes |
| Controller.Cycle | src/main.cpp:212-256 | one iteration stores the sample and the bounds. Force is afterwards true iff a bound or the offset changed. Without a trigger, target and generation are untouched and the change accumulates. With a trigger, the target is clamped and the generation moves iff the target differs from the live brightness. The first iteration leaves no change behind |
| Controller.Run | src/main.cpp:183-257 | with no iteration the state is unchanged; n iterations publish between 0 and n generations; afterwards the last sample and the configuration are the remembered ones, and force is pending iff there was exactly one iteration and it saw a bound or the offset change, so under a fixed configuration a change forces only the next iteration |
| Controller.QuietRun | src/main.cpp:213-217 | while the accumulated change stays within the threshold, no recompute is pending and the bounds stay put, any run of iterations leaves target and generation unchanged; the change grows by exactly the total luminance variation |
| Controller.DeltaNeverDecreasesWhileQuiet | src/main.cpp:213-217 | between triggers the accumulated change never decreases |
| Controller.RunTargetInBounds | src/main.cpp:219-227 | with consistent bounds, a target that starts in range stays in range over any run |
| Controller.TargetExamples | src/main.cpp:219-227 | default 110, bounds [10, 255], offset 0: sample 80 gives target 30; sample 150 gives raw -40, clamped to 10 |
| Controller.ThresholdExample | src/main.cpp:213-243 | threshold 30: samples 50, 52, 90 accumulate 2 (no trigger), then 40 (trigger and signal); the change is not reset by the controller |
| Actuator.DimInterval | src/main.cpp:89 | for a positive speed and a non-negative accumulated change the dimming interval is at most 100 ms |
| Actuator.DimIntervalBounds | src/main.cpp:89 | for speed > 0 and a non-negative change the interval is at most 100 ms, and it is non-negative while the change is below 404 |
| Actuator.Pacing | src/main.cpp:89-92 | the interval is the dimming interval, truncated by 3 (as C++ `/=` does) when the ramp brightens; it is at most 100 ms, and non-negative for changes below 404 |
| Actuator.BrighteningNotSlower | src/main.cpp:89-92 | when the dimming interval is non-negative, the brightening interval is its truncated third, so it is never larger |
| Actuator.BrighteningLargerWhenNegative | src/main.cpp:89-92 | when the dimming interval is negative, the brightening interval is strictly larger than it (and not positive) |
| Actuator.PacingAntitone | src/main.cpp:89-92 | for a positive speed, a larger accumulated change never gives a longer interval |
| Actuator.Toward | src/main.cpp:96-98 | one step moves exactly one unit toward the target, closing the distance by one; on equality nothing moves |
| Actuator.RampIter | src/main.cpp:94-108 | the loop continues iff the captured generation is current, run holds, the target is not reached, and quit is not set. A stale or paused guard stops it before any step. Equality stops it without a step. A step under quit is taken and then the loop stops |
| Actuator.Ramp | src/main.cpp:94-113 | a ramp takes at most one step per iteration, moves at most one unit per step, and stops only for a reason it actually observed (a newer generation, a cleared run flag, the quit flag, or a current snapshot whose target equals the brightness it ended at) |
| Actuator.RampNoOvershoot | src/main.cpp:94-98 | with a fixed target, however the ramp is interrupted, it ends between its start and the target, and each step closes the distance by exactly one |
| Actuator.RampReachesTarget | src/main.cpp:94-98 | an uninterrupted ramp reaches the target after exactly the distance in steps and then stops on equality |
| Actuator.RampCancelled | src/main.cpp:94 | once an iteration observes a newer generation, the ramp has stopped at or before that iteration |
| ControlLoop.Init | src/main.cpp:36-154 | at start-up (`scr_br` at line 36, the `Args` fields at 52-57, the ramp thread's locals at 70-71, the decision loop's locals at 149-154) the live brightness is the default, the generation is 0, and the invariant holds |
| ControlLoop.Enabled | src/main.cpp:73-191 | once both loops have seen quit at their tests (lines 73 and 183) and returned, only the window's pause/resume and the signal can still happen |
| ControlLoop.ReturnedLoopsAreInert | src/main.cpp:73-191 | once both loops have returned, every event that can still happen leaves the controller state, the live brightness and the ramp thread's locals unchanged |
| ControlLoop.Step | src/main.cpp:73-266 | one atomic step of either loop, or a flag write of the window or the signal handler (lines 360-361). The generation counter grows by at most one per event, and only a signalling iteration or the shutdown path moves it (the shutdown path by exactly one). Only the ramp moves the live brightness, one unit toward the target. Only a decision iteration writes the target. A decision iteration is exactly one `Controller.Cycle` on the live brightness and leaves the ramp thread alone. Waking captures the current generation, computes the pacing and consumes the accumulated change. Each loop returns only after its own test has seen quit |
| ControlLoop.StepKeepsInv | src/main.cpp:80-115 | each event keeps `old_c <= c <= callcnt`, with `old_c < c` during a ramp and `old_c == c` outside it; the captured and finished generations never decrease |
| ControlLoop.WakeTakesNewGeneration | src/main.cpp:80-83 | every wake-up captures a generation strictly newer than any captured before, so each generation is taken up at most once |
| ControlLoop.BlockedWithoutNewGeneration | src/main.cpp:80 | a blocked ramp thread cannot wake until a new generation has been published |
| ControlLoop.ShutdownWakesActuator | src/main.cpp:183-266 | when the decision loop sees quit, the wait predicate `callcnt > old_c` holds after its shutdown path's final increment |
| ControlLoop.SupersededRampRewaits | src/main.cpp:94-115 | a ramp iteration that sees a newer generation or a cleared `run` takes no step, records its generation as finished (`old_c = c`, line 115) and returns to the top of the outer loop, with nothing else changed; when a newer generation was the reason, the wait predicate at line 80 already holds |
| ControlLoop.SignalWakesActuator | src/main.cpp:217-241 | an iteration that triggers on a clamped target different from the live brightness makes the ramp thread's wait predicate `callcnt > old_c` (line 80) true, so a blocked ramp thread can wake |
| ControlLoop.QuietPollSendsNothing | src/main.cpp:217-246 | an iteration that does not trigger leaves the target, the generation counter and the live brightness unchanged |
| ControlLoop.ExecKeepsInv | src/main.cpp:73-120 | along any executable trace the invariant holds at the end. The published generation grows by at most one per event. The finished generation never decreases and never passes the published one |
| ControlLoop.ReachableInv | src/main.cpp:68-120 | every state reachable from start-up satisfies the invariant |
| ControlLoop.UndisturbedRampInSystem | src/main.cpp:94-115 | a ramp left undisturbed brings the live brightness onto the target in exactly the distance in iterations. It finishes its generation in the next iteration and changes nothing else |

## Notes on the control loop

- **Resetting the accumulated change.** A signalling iteration does not
  reset the accumulated change: line 243 resets it only when the clamped
  target already equals the live brightness. When the decision loop
  signals, the change stays in place until the ramp thread consumes it at
  wake-up (line 90). `Controller.ThresholdExample` shows
  this: the change is still 40 after the signalling iteration.
- **The force flag.** A pending force always causes a trigger (line 217),
  and the trigger branch clears it (line 245). So after every iteration,
  force is true exactly when a bound or the offset changed (lines 248-251).
  This holds for a configuration read once per iteration, as `Poll` takes
  it; the source reads it several times (see "Left out").
  The stored bounds start at 0 (lines 149-152), so the iteration after the
  first one is forced unless all three settings are 0.
- **Brightening versus dimming.** A brightening ramp of a given size takes
  as many steps as a dimming ramp of the same size. Each brightening step
  waits the truncated third of the dimming interval (line 92). While the
  dimming interval is non-negative, that third is never larger. With a
  change of 404 or more at a positive speed, the numerator at line 89 can
  be negative. The brightening interval is then not smaller than the
  dimming one, and it is strictly larger whenever the dimming interval is
  negative (`Actuator.BrighteningLargerWhenNegative`). Both are 0 when the
  negative numerator divides to 0.

## Left out

- Threads, mutexes, condition variables, `notify_one`, `sleep_for` and
  `Sleep` are not modelled. The two loops are a sequential interleaving of
  atomic events, and the pacing value is computed but no time passes. The
  source reads and writes `img_delta`, `scr_br`, `target_br` and `callcnt`
  without a lock. A lost update between the ramp thread's reset of
  `img_delta` and the decision loop's `+=` is therefore possible in the
  source but not in this model. Three more interleavings of the source are
  also absent, because `Poll` and `ActWake` are single atomic events:
  - A lost wake-up. `++args.callcnt` and `notify_one` (lines 235-241 and
    265-266) run without holding `args.mtx`. A notify can fall between the
    ramp thread's predicate test and its block at line 80. At shutdown the
    ramp thread then stays blocked, and `t1.join()` at line 272 does not
    return. `ControlLoop.ShutdownWakesActuator` states only that the wait
    predicate holds, not that the blocked thread is woken.
  - A transiently unclamped target. Line 219 publishes the raw target
    before lines 221-227 clamp it. A ramp iteration reading `target_br` in
    between (lines 96-97) can step one unit toward an out-of-range value.
  - A configuration changed during an iteration. The source reads
    `cfg[MaxBr]` at lines 221-222 and `cfg[MinBr]` at 225-226, compares the
    settings with the stored ones at line 248, and reads them again to store
    them at lines 254-256. A bound or offset changed by the window between
    line 248 and lines 254-256 is stored without raising `force`, so no
    recompute follows for it. `Poll` reads one configuration per iteration,
    so this race is absent from the model.
- Screen capture is not modelled (DXGI/GDI/X11 snapshots, `restartDXGI` and
  its retry loop), because these are platform I/O. Neither is `calcBrightness`
  (defined in `utils.h`, which is not part of this model). The luminance
  sample is an arbitrary integer input of `Poll`.
- Gamma output is not modelled (`setGDIBrightness`, `setXF86Gamma`,
  `setInitialGamma`, the temperature argument), because these are platform
  I/O. The ramp loop's quit test after a step is modelled; the gamma call it
  guards is not.
- `adjustTemperature` is not modelled: it is wall-clock formatting and one
  timed sleep.
- `main`, the Qt window and `saveConfig` are not modelled. The window's
  behaviour (`updateBrLabel`, `updatePollingSlider`, `isVisible`, when it
  changes `run`, `quit` or `*force`) is not part of this model. Its writes
  of `run` and `*force` are the unconstrained events `SetRun` and
  `RequestRecompute`; its write of `quit` is modelled only through `Signal`,
  which sets `run` and `quit` together.
- `sig_handler` is reduced to the `Signal` event (`run := true`,
  `quit := true`). Its `saveConfig` call and `_exit` fallback are left out.
- The polling-rate slider bounds (lines 38-39, 163-164) are UI
  configuration with no logic attached, and are left out.
- Fixed-width integers are not modelled; all integers are unbounded. In
  the source the raw target at line 219 and `abs(old_imgBr - img_br)` at
  line 213 overflow `int` when an offset, the default brightness or a
  sample is near 2^31, `img_delta` overflows after 2^31 accumulated units,
  and `callcnt` (a `size_t`) wraps after 2^64 generations.
- `Speed` must be non-zero: C++ leaves division by zero undefined. Negative
  values are allowed and are divided with truncation.
- Actuator.Ramp: reads a finite sequence of snapshots. A ramp that is
  still stepping when the snapshots run out ends as `Ongoing`, which stands
  for "not finished yet". It does not mean the loop stops there.
- Actuator.BrighteningNotSlower: stated only for a non-negative dimming
  interval, because for a negative one the comparison is reversed (see
  above).

=== FILE: actuator.dfy ===
/**
 The ramp half of the brightness loop, `adjustBrightness`: the pacing value
 computed on wake-up, the one-unit step toward the target, and the inner
 loop that keeps stepping while its captured generation is still current.
 What the other thread does in the meantime is given to the inner loop as a
 sequence of snapshots, one per iteration.
 */
module Actuator {
  import opened CInt

  /** The interval of a dimming ramp, in milliseconds:
      `(100 - img_delta / 4) / Speed` with C++ truncating division. */
  function DimInterval(imgDelta: int, speed: int): (ms: int)
    requires speed != 0
    ensures speed > 0 && imgDelta >= 0 ==> ms <= 100
  {
    Div(100 - Div(imgDelta, 4), speed)
  }

  /** With a positive speed and a non-negative accumulated change the
      interval is at most 100 ms, and it is not negative while the change
      stays below 404. */
  lemma DimIntervalBounds(imgDelta: int, speed: int)
    requires speed > 0 && imgDelta >= 0
    ensures DimInterval(imgDelta, speed) <= 100
    ensures imgDelta < 404 ==> 0 <= DimInterval(imgDelta, speed)
  {
  }

  /** The sleep between two ramp steps: the dimming interval, divided once
      more by 3 (truncating) when the ramp brightens. */
  function Pacing(imgDelta: int, speed: int, scrBr: int, targetBr: int): (ms: int)
    requires speed != 0
    ensures speed > 0 && imgDelta >= 0 ==> ms <= 100
    ensures speed > 0 && 0 <= imgDelta < 404 ==> 0 <= ms
    ensures scrBr >= targetBr ==> ms == DimInterval(imgDelta, speed)
    ensures scrBr < targetBr ==> ms == Div(DimInterval(imgDelta, speed), 3)
  {
    var base := DimInterval(imgDelta, speed);
    ThirdBounds(imgDelta, speed);
    if scrBr < targetBr then Div(base, 3) else base
  }

  /** The bounds of the dimming interval carry over to its third. */
  lemma ThirdBounds(imgDelta: int, speed: int)
    requires speed != 0
    ensures speed > 0 && imgDelta >= 0 ==> Div(DimInterval(imgDelta, speed), 3) <= 100
    ensures speed > 0 && 0 <= imgDelta < 404 ==> 0 <= DimInterval(imgDelta, speed)
    ensures speed > 0 && 0 <= imgDelta < 404 ==> 0 <= Div(DimInterval(imgDelta, speed), 3)
  {
    if speed > 0 && imgDelta >= 0 {
      var base := DimInterval(imgDelta, speed);
      DimIntervalBounds(imgDelta, speed);
      DivMonotone(base, 100, 3);
      DivShrinks(100, 3);
      if imgDelta < 404 {
        DivMonotone(0, base, 3);
      }
    }
  }

  /** Brightening is never paced slower than dimming from the same
      accumulated change, as long as the dimming interval is not negative;
      it is a third of it, truncated. */
  lemma BrighteningNotSlower(imgDelta: int, speed: int, lo: int, hi: int)
    requires speed != 0 && lo < hi
    requires DimInterval(imgDelta, speed) >= 0
    ensures Pacing(imgDelta, speed, lo, hi) <= Pacing(imgDelta, speed, hi, lo)
    ensures Pacing(imgDelta, speed, hi, lo) == DimInterval(imgDelta, speed)
    ensures 3 * Pacing(imgDelta, speed, lo, hi) <= Pacing(imgDelta, speed, hi, lo) < 3 * Pacing(imgDelta, speed, lo, hi) + 3
  {
  }

  /** With a negative dimming interval (an accumulated change of 404 or
      more at a positive speed) the comparison turns round: truncating the
      negative value by 3 moves it toward zero, so the brightening interval
      is strictly larger than the dimming one. */
  lemma BrighteningLargerWhenNegative(imgDelta: int, speed: int, lo: int, hi: int)
    requires speed != 0 && lo < hi
    requires DimInterval(imgDelta, speed) < 0
    ensures Pacing(imgDelta, speed, lo, hi) > Pacing(imgDelta, speed, hi, lo)
    ensures Pacing(imgDelta, speed, lo, hi) <= 0
  {
  }

  /** The larger the accumulated luminance change, the shorter the pause
      between steps (for a positive speed and a fixed direction). */
  lemma PacingAntitone(d1: int, d2: int, speed: int, scrBr: int, targetBr: int)
    requires d1 <= d2 && speed > 0
    ensures Pacing(d2, speed, scrBr, targetBr) <= Pacing(d1, speed, scrBr, targetBr)
  {
    DivMonotone(d1, d2, 4);
    DivMonotone(100 - Div(d2, 4), 100 - Div(d1, 4), speed);
    DivMonotone(DimInterval(d2, speed), DimInterval(d1, speed), 3);
  }

  /** One unit of brightness toward the target: up when below, down when
      above, unchanged when equal. */
  function Toward(scr: int, target: int): (r: int)
    ensures scr == target ==> r == scr
    ensures scr != target ==> Abs(r - scr) == 1
    ensures scr != target ==> Abs(target - r) == Abs(target - scr) - 1
  {
    if scr < target then scr + 1
    else if scr > target then scr - 1
    else scr
  }

  /** What the ramp observes of the shared state at the top of one inner
      iteration: the generation counter, the pause and quit flags, and the
      target brightness. */
  datatype Env = Env(callcnt: nat, run: bool, quit: bool, targetBr: int)

  /** Why the inner loop stopped. */
  datatype Why =
    | Superseded  // a newer generation was published
    | Paused      // the run flag was cleared
    | Reached     // the live brightness equals the target
    | Quitting    // a step was taken while the quit flag was set

  /** The result of one inner iteration: keep going from the new brightness,
      or leave the loop with the brightness it ended at. */
  datatype Iter = Continue(scr: int) | Stop(scr: int, why: Why)

  /** Whether the inner loop's guard holds: the captured generation is still
      the current one and the loop is not paused. */
  predicate Current(c: nat, e: Env)
  {
    c == e.callcnt && e.run
  }

  /** One iteration of the inner ramp loop of generation `c`. */
  function RampIter(scr: int, c: nat, e: Env): (r: Iter)
    // the loop goes on exactly when a step was taken, under a current guard, while not quitting
    ensures r.Continue? <==> Current(c, e) && scr != e.targetBr && !e.quit
    // a stale or paused guard stops the loop before any step
    ensures !Current(c, e) ==> r == Stop(scr, if c != e.callcnt then Superseded else Paused)
    // reaching the target stops the loop without a step
    ensures Current(c, e) && scr == e.targetBr ==> r == Stop(scr, Reached)
    // otherwise exactly one unit is taken toward the target, applied or not
    ensures Current(c, e) && scr != e.targetBr ==> r.scr == Toward(scr, e.targetBr)
    ensures Current(c, e) && scr != e.targetBr && e.quit ==> r == Stop(r.scr, Quitting)
  {
    if !Current(c, e) then Stop(scr, if c != e.callcnt then Superseded else Paused)
    else if scr == e.targetBr then Stop(scr, Reached)
    else
      var next := Toward(scr, e.targetBr);
      if e.quit then Stop(next, Quitting) else Continue(next)
  }

  /** How a ramp over finitely many snapshots ended: it left the loop for a
      reason, or it was still stepping when the snapshots ran out. */
  datatype Outcome = Ongoing | Ended(why: Why)

  /** A ramp's end brightness, its number of one-unit steps and its outcome. */
  datatype RampResult = RampResult(scr: int, steps: nat, outcome: Outcome)

  /** The inner loop of generation `c` run from brightness `scr`, reading
      `envs[i]` at the top of iteration `i`. */
  function Ramp(scr: int, c: nat, envs: seq<Env>): (r: RampResult)
    ensures r.steps <= |envs|
    // every step moves by one unit, so the distance covered is bounded by the steps
    ensures Abs(r.scr - scr) <= r.steps
    // a ramp still going has taken a step on every snapshot
    ensures r.outcome == Ongoing ==> r.steps == |envs|
    // a ramp only stops for a reason it actually observed
    ensures r.outcome == Ended(Superseded) ==> exists i :: 0 <= i < |envs| && envs[i].callcnt != c
    ensures r.outcome == Ended(Paused) ==> exists i :: 0 <= i < |envs| && !envs[i].run
    ensures r.outcome == Ended(Quitting) ==> exists i :: 0 <= i < |envs| && envs[i].quit
    // and a ramp that reached its target stopped on a current snapshot showing that target
    ensures r.outcome == Ended(Reached) ==> exists i :: 0 <= i < |envs| && Current(c, envs[i]) && envs[i].targetBr == r.scr
    decreases |envs|
  {
    if |envs| == 0 then RampResult(scr, 0, Ongoing)
    else
      match RampIter(scr, c, envs[0])
      case Stop(s, why) =>
        RampResult(s, if why == Quitting then 1 else 0, Ended(why))
      case Continue(s) =>
        var rest := Ramp(s, c, envs[1..]);
        if rest.outcome.Ended? then
          ShownInTail(envs, rest.outcome.why, c, rest.scr);
          RampResult(rest.scr, rest.steps + 1, rest.outcome)
        else
          RampResult(rest.scr, rest.steps + 1, rest.outcome)
  }

  /** Whether snapshot `e` shows the reason `why` for the ramp of generation
      `c` to stop at brightness `scr`. */
  predicate Shows(why: Why, c: nat, scr: int, e: Env)
  {
    match why
    case Superseded => e.callcnt != c
    case Paused => !e.run
    case Reached => Current(c, e) && e.targetBr == scr
    case Quitting => e.quit
  }

  /** A reason shown by a later snapshot is shown by the whole sequence. */
  lemma ShownInTail(envs: seq<Env>, why: Why, c: nat, scr: int)
    requires |envs| > 0
    requires exists i :: 0 <= i < |envs[1..]| && Shows(why, c, scr, envs[1..][i])
    ensures exists i :: 0 <= i < |envs| && Shows(why, c, scr, envs[i])
  {
    var i :| 0 <= i < |envs[1..]| && Shows(why, c, scr, envs[1..][i]);
    assert envs[1..][i] == envs[i + 1];
  }

  /** Whether `x` lies between `a` and `b`, in either order. */
  predicate Between(a: int, x: int, b: int)
  {
    (a <= x <= b) || (b <= x <= a)
  }

  /** Whether every snapshot shows the same target. */
  predicate FixedTarget(envs: seq<Env>, target: int)
  {
    forall i :: 0 <= i < |envs| ==> envs[i].targetBr == target
  }

  /** No overshoot: while the target stays put, whatever interrupts the
      ramp, it ends between its start and the target, having moved exactly
      one unit per step. */
  lemma {:induction false} RampNoOvershoot(scr: int, c: nat, envs: seq<Env>, target: int)
    requires FixedTarget(envs, target)
    ensures Between(scr, Ramp(scr, c, envs).scr, target)
    ensures Abs(Ramp(scr, c, envs).scr - scr) == Ramp(scr, c, envs).steps
    ensures Abs(target - Ramp(scr, c, envs).scr) == Abs(target - scr) - Ramp(scr, c, envs).steps
    decreases |envs|
  {
    if |envs| > 0 {
      var it := RampIter(scr, c, envs[0]);
      if it.Continue? {
        assert FixedTarget(envs[1..], target) by {
          forall i | 0 <= i < |envs[1..]|
            ensures envs[1..][i].targetBr == target
          {
            assert envs[1..][i] == envs[i + 1];
          }
        }
        RampNoOvershoot(it.scr, c, envs[1..], target);
      }
    }
  }

  /** The snapshots of a ramp nobody interrupts: same generation, running,
      not quitting, same target, throughout. */
  predicate Undisturbed(envs: seq<Env>, c: nat, target: int)
  {
    forall i :: 0 <= i < |envs| ==> envs[i] == Env(c, true, false, target)
  }

  /** An uninterrupted ramp reaches the target after exactly as many steps
      as the distance to it, and then leaves the loop on equality. */
  lemma {:induction false} RampReachesTarget(scr: int, c: nat, envs: seq<Env>, target: int)
    requires Undisturbed(envs, c, target)
    requires |envs| > Abs(target - scr)
    ensures Ramp(scr, c, envs) == RampResult(target, Abs(target - scr), Ended(Reached))
    decreases |envs|
  {
    assert envs[0] == Env(c, true, false, target);
    if scr != target {
      assert Undisturbed(envs[1..], c, target) by {
        forall i | 0 <= i < |envs[1..]|
          ensures envs[1..][i] == Env(c, true, false, target)
        {
          assert envs[1..][i] == envs[i + 1];
        }
      }
      RampReachesTarget(Toward(scr, target), c, envs[1..], target);
    }
  }

  /** Cooperative cancellation: once a snapshot shows a newer generation,
      the ramp has left the loop no later than that iteration. */
  lemma {:induction false} RampCancelled(scr: int, c: nat, envs: seq<Env>, k: nat)
    requires k < |envs| && envs[k].callcnt != c
    ensures Ramp(scr, c, envs).outcome.Ended?
    ensures Ramp(scr, c, envs).steps <= k
    decreases |envs|
  {
    var it := RampIter(scr, c, envs[0]);
    if it.Continue? {
      assert k > 0;
      assert envs[1..][k - 1] == envs[k];
      RampCancelled(it.scr, c, envs[1..], k - 1);
    }
  }

  /** The actuator's wait predicate: there is a generation it has not yet
      taken up. */
  predicate WaitReady(callcnt: nat, oldC: nat)
  {
    callcnt > oldC
  }
}

=== FILE: cint.dfy ===
/**
 The C++ integer arithmetic the brightness loop relies on, written out for
 Dafny's unbounded integers. Dafny's `/` is Euclidean; C++ `/` on `int`
 truncates toward zero, and the pacing computation can see a negative
 numerator, so the truncating form is defined here and related to Dafny's.
 */
module CInt {

  /** Absolute value, as `abs` from <cstdlib>. */
  function Abs(x: int): (r: nat)
    ensures r == x || r == -x
  {
    if x < 0 then -x else x
  }

  /** C++ `a / b` on signed integers: the quotient truncated toward zero. */
  function Div(a: int, b: int): (q: int)
    requires b != 0
    ensures Abs(q) * Abs(b) <= Abs(a) < Abs(q) * Abs(b) + Abs(b)
    ensures q > 0 ==> (a < 0 <==> b < 0)
    ensures q < 0 ==> (a < 0 <==> b > 0)
  {
    var x, y := Abs(a), Abs(b);
    var m := x / y;
    EuclidBounds(x, y);
    var q := if (a < 0) == (b < 0) then m else -m;
    assert Abs(q) == m;
    q
  }

  /** Dafny's quotient of naturals, bracketed by multiples of the divisor. */
  lemma EuclidBounds(x: nat, y: int)
    requires y > 0
    ensures 0 <= x / y
    ensures (x / y) * y <= x < (x / y) * y + y
  {
  }

  /** On a non-negative numerator and a positive divisor the two divisions agree. */
  lemma DivAgreesOnNatural(a: int, b: int)
    requires a >= 0 && b > 0
    ensures Div(a, b) == a / b
  {
  }

  /** Truncation is symmetric about zero, unlike Euclidean or floor division. */
  lemma DivOddInNumerator(a: int, b: int)
    requires b != 0
    ensures Div(-a, b) == -Div(a, b)
  {
  }

  /** Euclidean division by a positive divisor is monotone in the numerator. */
  lemma EuclidMonotone(a1: int, a2: int, b: int)
    requires 0 <= a1 <= a2 && b > 0
    ensures a1 / b <= a2 / b
  {
    var q1, q2 := a1 / b, a2 / b;
    if q1 > q2 {
      MulMonotone(q2 + 1, q1, b);
      assert false;
    }
  }

  /** Multiplying by a positive factor preserves the order. */
  lemma MulMonotone(x: int, y: int, b: int)
    requires x <= y && b > 0
    ensures x * b <= y * b
  {
  }

  /** Truncating division by a positive divisor is monotone in the numerator. */
  lemma DivMonotone(a1: int, a2: int, b: int)
    requires a1 <= a2 && b > 0
    ensures Div(a1, b) <= Div(a2, b)
  {
    if 0 <= a1 {
      EuclidMonotone(a1, a2, b);
    } else if a2 < 0 {
      EuclidMonotone(-a2, -a1, b);
    }
  }

  /** Dividing a non-negative value by a divisor of at least one never enlarges it. */
  lemma DivShrinks(a: int, b: int)
    requires a >= 0 && b >= 1
    ensures 0 <= Div(a, b) <= a
  {
  }
}

=== FILE: control_loop.dfy ===
/**
 The two loops of the brightness controller and their lifecycle flags put
 together as one labelled transition system. Each event is one atomic step
 of one thread (or one external action); any sequence of enabled events is
 a sequential interleaving of the threads. The generation counter `callcnt`
 is the only thing that hands work from the decision loop to the ramp loop.
 */
module ControlLoop {
  import opened CInt
  import opened Controller
  import opened Actuator

  /** Where the ramp thread is in its outer loop: about to test the quit
      flag, blocked on the generation wait, inside a ramp with its pacing
      value, or gone. */
  datatype Phase = Top | Blocked | Ramping(sleepMs: int) | Exited

  /** Where the decision loop is: about to test the quit flag at the top of
      its loop, past that test and at the pause wait for `run`, past the
      pause wait and about to sample, or returned after its shutdown path. */
  datatype CtlPhase = Looping | Pausable | Polling | Done

  /** The ramp thread's locals: its phase, the generation `c` it captured
      last, and `old_c`, the last generation it finished with. */
  datatype Act = Act(phase: Phase, c: nat, oldC: nat)

  /** The whole system: the decision loop's state (including the shared
      target, accumulated change and generation counter), the live
      brightness `scr_br`, the decision loop's phase, the ramp thread's
      locals, the window's `run` and `quit` flags, and the constant default
      brightness. */
  datatype Sys = Sys(
    ctl: Ctl,
    scrBr: int,
    ctlPhase: CtlPhase,
    act: Act,
    run: bool,
    quit: bool,
    defaultBr: int)

  /** The system at start-up: the live brightness is the default, both loops
      are at their start, nothing is quitting. */
  function Init(defaultBr: int, run: bool): (s: Sys)
    ensures Inv(s)
    ensures s.scrBr == defaultBr && s.ctl.callcnt == 0 && !s.quit
  {
    Sys(Controller.Initial, defaultBr, Looping, Act(Top, 0, 0), run, false, defaultBr)
  }

  /** The atomic steps. */
  datatype Event =
    | CtlCheck                        // the decision loop tests quit; if set, its shutdown path bumps the generation
    | CtlResume                       // the decision loop passes its pause wait, which needs `run`
    | Poll(sample: int, cfg: Config)  // the rest of one decision-loop iteration, on a luminance sample
    | ActCheck                        // the ramp loop tests the quit flag at its top
    | ActWake(speed: int)             // the ramp loop leaves its wait and computes its pacing
    | ActStep                         // one inner iteration of the ramp
    | SetRun(run: bool)               // the window pauses or resumes the loops
    | Signal                          // a termination signal: run and quit are both set
    | RequestRecompute                // the window raises the decision loop's force flag

  /** When each event can happen. */
  predicate Enabled(s: Sys, e: Event)
    // once both loops have returned, only the window can still act
    ensures s.ctlPhase == Done && s.act.phase == Exited && Enabled(s, e) ==> e.SetRun? || e == Signal
  {
    match e
    case CtlCheck => s.ctlPhase == Looping
    case CtlResume => s.ctlPhase == Pausable && s.run
    case Poll(_, _) => s.ctlPhase == Polling
    case ActCheck => s.act.phase == Top
    case ActWake(speed) => s.act.phase == Blocked && WaitReady(s.ctl.callcnt, s.act.oldC) && speed != 0
    case ActStep => s.act.phase.Ramping?
    case SetRun(_) => true
    case Signal => true
    case RequestRecompute => s.ctlPhase != Done
  }

  /** The snapshot one ramp iteration reads. */
  function Observe(s: Sys): Env
  {
    Env(s.ctl.callcnt, s.run, s.quit, s.ctl.targetBr)
  }

  /** The effect of one enabled event. */
  function Step(s: Sys, e: Event): (r: Sys)
    requires Enabled(s, e)
    // the generation counter only grows, by one at a time
    ensures s.ctl.callcnt <= r.ctl.callcnt <= s.ctl.callcnt + 1
    // only the ramp writes the live brightness, one unit at a time, toward the target it reads
    ensures r.scrBr != s.scrBr ==> e == ActStep && r.scrBr == Toward(s.scrBr, s.ctl.targetBr)
    // only a decision-loop iteration writes the target
    ensures r.ctl.targetBr != s.ctl.targetBr ==> e.Poll?
    // a decision-loop iteration is one controller cycle on the live brightness, and touches nothing of the ramp
    ensures e.Poll? ==> r.ctl == Cycle(s.ctl, e.sample, e.cfg, s.defaultBr, s.scrBr)
    ensures e.Poll? ==> r.act == s.act && r.scrBr == s.scrBr && r.ctlPhase == Looping
    // only the shutdown path and a signalling iteration publish a generation
    ensures r.ctl.callcnt != s.ctl.callcnt ==> e == CtlCheck || e.Poll?
    ensures e == CtlCheck && s.quit ==> r.ctl.callcnt == s.ctl.callcnt + 1 && r.ctlPhase == Done
    // the decision loop returns only when it sees the quit flag
    ensures r.ctlPhase == Done && s.ctlPhase != Done ==> e == CtlCheck && s.quit
    // waking up captures the current generation and consumes the accumulated change
    ensures e.ActWake? ==> r.act.c == s.ctl.callcnt && r.ctl.imgDelta == 0 && r.act.phase.Ramping?
    ensures e.ActWake? ==> r.act.phase.sleepMs == Pacing(s.ctl.imgDelta, e.speed, s.scrBr, s.ctl.targetBr)
    // leaving a ramp records the captured generation as finished
    ensures e == ActStep && r.act.phase == Top ==> r.act.oldC == s.act.c
    // the ramp loop exits only when it sees the quit flag
    ensures r.act.phase == Exited && s.act.phase != Exited ==> e == ActCheck && s.quit
  {
    match e
    case CtlCheck =>
      if s.quit then s.(ctl := s.ctl.(callcnt := s.ctl.callcnt + 1), ctlPhase := Done)
      else s.(ctlPhase := Pausable)
    case CtlResume =>
      s.(ctlPhase := Polling)
    case Poll(sample, cfg) =>
      s.(ctl := Cycle(s.ctl, sample, cfg, s.defaultBr, s.scrBr), ctlPhase := Looping)
    case ActCheck =>
      s.(act := s.act.(phase := if s.quit then Exited else Blocked))
    case ActWake(speed) =>
      var sleepMs := Pacing(s.ctl.imgDelta, speed, s.scrBr, s.ctl.targetBr);
      s.(ctl := s.ctl.(imgDelta := 0), act := Act(Ramping(sleepMs), s.ctl.callcnt, s.act.oldC))
    case ActStep =>
      (match RampIter(s.scrBr, s.act.c, Observe(s))
       case Continue(scr) => s.(scrBr := scr)
       case Stop(scr, _) => s.(scrBr := scr, act := Act(Top, s.act.c, s.act.c)))
    case SetRun(run) =>
      s.(run := run)
    case Signal =>
      s.(run := true, quit := true)
    case RequestRecompute =>
      s.(ctl := s.ctl.(force := true))
  }

  /** What holds of every reachable state: the ramp thread never runs ahead
      of the published generation; outside a ramp it has finished the
      generation it captured; inside a ramp that generation is newer than
      the one finished before; and the decision loop returns only once
      quitting. */
  predicate Inv(s: Sys)
  {
    && s.act.oldC <= s.act.c <= s.ctl.callcnt
    && (s.act.phase.Ramping? ==> s.act.oldC < s.act.c)
    && (!s.act.phase.Ramping? ==> s.act.oldC == s.act.c)
    && (s.ctlPhase == Done ==> s.quit)
  }

  /** Every event keeps the invariant, and from a state satisfying it the
      generations the ramp thread captured and finished only grow. */
  lemma StepKeepsInv(s: Sys, e: Event)
    requires Inv(s) && Enabled(s, e)
    ensures Inv(Step(s, e))
    ensures s.act.c <= Step(s, e).act.c && s.act.oldC <= Step(s, e).act.oldC
  {
  }

  /** Each wake-up takes up a generation strictly newer than every one the
      ramp thread has captured before, so no generation is worked on twice. */
  lemma WakeTakesNewGeneration(s: Sys, speed: int)
    requires Inv(s) && Enabled(s, ActWake(speed))
    ensures Step(s, ActWake(speed)).act.c > s.act.c
    ensures Step(s, ActWake(speed)).act.c > s.act.oldC
  {
  }

  /** After the shutdown path's final generation bump the ramp thread's
      wait predicate holds, whatever generation it finished last. */
  lemma ShutdownWakesActuator(s: Sys)
    requires Inv(s) && Enabled(s, CtlCheck) && s.quit
    ensures WaitReady(Step(s, CtlCheck).ctl.callcnt, Step(s, CtlCheck).act.oldC)
    ensures Step(s, CtlCheck).act.phase == Blocked ==> Enabled(Step(s, CtlCheck), ActWake(1))
  {
  }

  /** A decision-loop iteration that triggers on a clamped target different
      from the live brightness publishes a generation the ramp thread has not
      finished, so its wait predicate holds afterwards. */
  lemma SignalWakesActuator(s: Sys, sample: int, cfg: Config)
    requires Inv(s) && Enabled(s, Poll(sample, cfg))
    requires Triggers(Accumulate(s.ctl, sample), cfg.threshold, s.ctl.force)
    requires Clamp(RawTarget(s.defaultBr, sample, cfg.offset), cfg.minBr, cfg.maxBr) != s.scrBr
    ensures WaitReady(Step(s, Poll(sample, cfg)).ctl.callcnt, Step(s, Poll(sample, cfg)).act.oldC)
    ensures Step(s, Poll(sample, cfg)).act.phase == Blocked ==> Enabled(Step(s, Poll(sample, cfg)), ActWake(1))
  {
  }

  /** A ramp iteration that sees a newer generation or a cleared run flag
      leaves the ramp without a step: it records its generation as finished
      and goes back to the top of its loop, and nothing else changes. When a
      newer generation was the reason, its wait predicate already holds, so
      it re-waits only to take that generation up at once. */
  lemma SupersededRampRewaits(s: Sys)
    requires Inv(s) && s.act.phase.Ramping?
    requires s.act.c != s.ctl.callcnt || !s.run
    ensures Step(s, ActStep) == s.(act := Act(Top, s.act.c, s.act.c))
    ensures s.act.c != s.ctl.callcnt ==> WaitReady(Step(s, ActStep).ctl.callcnt, Step(s, ActStep).act.oldC)
  {
  }

  /** Once both loops have returned, every event that can still happen is a
      write of the window's flags: the controller state, the live brightness
      and the ramp thread's locals stay as they are. */
  lemma ReturnedLoopsAreInert(s: Sys, e: Event)
    requires Enabled(s, e) && s.ctlPhase == Done && s.act.phase == Exited
    ensures Step(s, e).ctl == s.ctl && Step(s, e).scrBr == s.scrBr && Step(s, e).act == s.act
    ensures Step(s, e).ctlPhase == Done && Step(s, e).act.phase == Exited
  {
  }

  /** A blocked ramp thread stays blocked while no generation is published:
      without a new one its wait predicate is false. */
  lemma BlockedWithoutNewGeneration(s: Sys, speed: int)
    requires Inv(s) && s.act.phase == Blocked && s.ctl.callcnt == s.act.c
    ensures !Enabled(s, ActWake(speed))
  {
  }

  /** A decision-loop iteration that does not trigger sends no signal: the
      target, the generation counter and the live brightness stay put. */
  lemma QuietPollSendsNothing(s: Sys, sample: int, cfg: Config)
    requires Enabled(s, Poll(sample, cfg))
    requires !Triggers(Accumulate(s.ctl, sample), cfg.threshold, s.ctl.force)
    ensures Step(s, Poll(sample, cfg)).ctl.targetBr == s.ctl.targetBr
    ensures Step(s, Poll(sample, cfg)).ctl.callcnt == s.ctl.callcnt
    ensures Step(s, Poll(sample, cfg)).scrBr == s.scrBr
  {
  }

  datatype Option<T> = None | Some(value: T)

  /** Running a sequence of events from a state; `None` when one of them is
      not enabled where it occurs. */
  function Exec(s: Sys, es: seq<Event>): Option<Sys>
    decreases |es|
  {
    if |es| == 0 then Some(s)
    else if !Enabled(s, es[0]) then None
    else Exec(Step(s, es[0]), es[1..])
  }

  /** Along any executable trace from a state satisfying the invariant the
      invariant still holds at the end, and the published and the finished
      generations have only grown, the published one by at most one per
      event. */
  lemma {:induction false} ExecKeepsInv(s: Sys, es: seq<Event>)
    requires Inv(s) && Exec(s, es).Some?
    ensures Inv(Exec(s, es).value)
    ensures s.ctl.callcnt <= Exec(s, es).value.ctl.callcnt <= s.ctl.callcnt + |es|
    ensures s.act.oldC <= Exec(s, es).value.act.oldC
    ensures Exec(s, es).value.act.oldC <= Exec(s, es).value.ctl.callcnt
    decreases |es|
  {
    if |es| > 0 {
      StepKeepsInv(s, es[0]);
      ExecKeepsInv(Step(s, es[0]), es[1..]);
    }
  }

  /** Every state reachable from start-up satisfies the invariant. */
  lemma ReachableInv(defaultBr: int, run: bool, es: seq<Event>)
    requires Exec(Init(defaultBr, run), es).Some?
    ensures Inv(Exec(Init(defaultBr, run), es).value)
  {
    ExecKeepsInv(Init(defaultBr, run), es);
  }

  /** `n` consecutive inner ramp iterations with no other event between them. */
  function RampSteps(n: nat): seq<Event>
  {
    seq(n, _ => ActStep)
  }

  /** A ramp the decision loop leaves alone (its generation stays current,
      the loops run and nothing quits) brings the live brightness onto the
      target in as many iterations as the distance, finishes its generation
      in the next one, and changes nothing else. */
  lemma {:induction false} UndisturbedRampInSystem(s: Sys)
    requires Inv(s) && s.act.phase.Ramping?
    requires s.act.c == s.ctl.callcnt && s.run && !s.quit
    ensures Exec(s, RampSteps(Abs(s.ctl.targetBr - s.scrBr) + 1))
         == Some(s.(scrBr := s.ctl.targetBr, act := Act(Top, s.act.c, s.act.c)))
    decreases Abs(s.ctl.targetBr - s.scrBr)
  {
    var n := Abs(s.ctl.targetBr - s.scrBr);
    var es := RampSteps(n + 1);
    assert Enabled(s, es[0]);
    var next := Step(s, ActStep);
    if n == 0 {
      assert es[1..] == [];
    } else {
      assert next == s.(scrBr := Toward(s.scrBr, s.ctl.targetBr));
      assert es[1..] == RampSteps(n);
      UndisturbedRampInSystem(next);
    }
  }
}

=== FILE: controller.dfy ===
/**
 The decision half of the brightness loop: one polling iteration of `app`
 taken as a pure step on the controller's state. The luminance sample, the
 configuration read in that iteration and the live brightness written by the
 actuator are inputs of the step.
 */
module Controller {
  import opened CInt

  /** The configuration integers one iteration reads: `cfg[MinBr]`,
      `cfg[MaxBr]`, `cfg[Offset]` and `cfg[Threshold]`. */
  datatype Config = Config(minBr: int, maxBr: int, offset: int, threshold: int)

  /** The state the decision loop carries from one iteration to the next:
      the shared `img_br`, `img_delta`, `target_br` and generation counter
      `callcnt`, and the loop's own `force` flag, previous sample and
      previously seen bounds. `first` is true while the one-time guard has
      not yet fired. */
  datatype Ctl = Ctl(
    imgBr: int,
    imgDelta: nat,
    targetBr: int,
    callcnt: nat,
    force: bool,
    oldImgBr: int,
    oldMin: int,
    oldMax: int,
    oldOffset: int,
    first: bool)

  /** The state before the first iteration: every integer zero, no pending
      recompute, the one-time guard not yet fired. */
  const Initial := Ctl(0, 0, 0, 0, false, 0, 0, 0, 0, true)

  function Min(x: int, y: int): (m: int)
    ensures m <= x && m <= y && (m == x || m == y)
  {
    if x <= y then x else y
  }

  function Max(x: int, y: int): (m: int)
    ensures m >= x && m >= y && (m == x || m == y)
  {
    if x <= y then y else x
  }

  /** The bounds applied to a raw target: the upper bound is tested first,
      so a raw value above `hi` yields `hi` whatever `lo` is. */
  function Clamp(raw: int, lo: int, hi: int): (r: int)
    ensures lo <= hi ==> lo <= r <= hi
    ensures r == raw <==> lo <= raw <= hi
    ensures raw > hi ==> r == hi
  {
    if raw > hi then hi
    else if raw < lo then lo
    else raw
  }

  /** With consistent bounds the clamp is the median of the raw value and
      the two bounds. */
  lemma ClampIsMedian(raw: int, lo: int, hi: int)
    requires lo <= hi
    ensures Clamp(raw, lo, hi) == Max(lo, Min(raw, hi))
  {
  }

  /** With crossed bounds the result is one of the two bounds, chosen by the
      upper-bound test alone. */
  lemma ClampCrossedBounds(raw: int, lo: int, hi: int)
    requires hi < lo
    ensures Clamp(raw, lo, hi) == (if raw > hi then hi else lo)
  {
  }

  /** The brightness the controller aims at for a luminance sample, before
      clamping: the darker the screen content, the brighter the output. */
  function RawTarget(defaultBr: int, imgBr: int, offset: int): (raw: int)
    ensures raw + imgBr == defaultBr + offset
  {
    defaultBr - imgBr + offset
  }

  /** The control law of the clamped target, for consistent bounds: a
      brighter sample never gives a brighter target, the target moves by at
      most as much as the sample did, and while both raw targets are in range
      it moves by exactly that much in the opposite direction. */
  lemma TargetCompensates(defaultBr: int, offset: int, b1: int, b2: int, lo: int, hi: int)
    requires lo <= hi && b1 <= b2
    ensures Clamp(RawTarget(defaultBr, b2, offset), lo, hi) <= Clamp(RawTarget(defaultBr, b1, offset), lo, hi)
    ensures Clamp(RawTarget(defaultBr, b1, offset), lo, hi) - Clamp(RawTarget(defaultBr, b2, offset), lo, hi) <= b2 - b1
    ensures lo <= RawTarget(defaultBr, b2, offset) && RawTarget(defaultBr, b1, offset) <= hi ==>
      Clamp(RawTarget(defaultBr, b1, offset), lo, hi) - Clamp(RawTarget(defaultBr, b2, offset), lo, hi) == b2 - b1
  {
  }

  /** With crossed bounds the control law fails: default 100, offset 0 and
      bounds (50, 20) give target 20 for sample 10 but 50 for the brighter
      sample 90. */
  lemma CrossedBoundsInvertTarget()
    ensures Clamp(RawTarget(100, 10, 0), 50, 20) == 20
    ensures Clamp(RawTarget(100, 90, 0), 50, 20) == 50
  {
  }

  /** The accumulated change after one more sample: the absolute difference
      to the previous sample is added, and on the very first iteration the
      sum is forced to zero. */
  function Accumulate(st: Ctl, sample: int): (acc: nat)
    ensures st.first ==> acc == 0
    ensures !st.first ==> acc >= st.imgDelta
    ensures !st.first ==> acc - st.imgDelta == Abs(st.oldImgBr - sample)
  {
    var acc := st.imgDelta + Abs(st.oldImgBr - sample);
    if st.first then 0 else acc
  }

  /** Whether any of the bounds or the offset differs from the value stored
      at the end of the previous iteration. */
  predicate BoundsChanged(st: Ctl, cfg: Config)
  {
    cfg.minBr != st.oldMin || cfg.maxBr != st.oldMax || cfg.offset != st.oldOffset
  }

  /** Whether an iteration recomputes the target: enough accumulated change
      or a pending forced recompute. */
  predicate Triggers(acc: int, threshold: int, force: bool)
  {
    acc > threshold || force
  }

  /** The trigger branch: a new clamped target; a signal (generation bump)
      when it differs from the live brightness, otherwise the accumulated
      change is dropped. */
  function Decide(st: Ctl, cfg: Config, defaultBr: int, scrBr: int): (r: Ctl)
    ensures r.targetBr == Clamp(RawTarget(defaultBr, st.imgBr, cfg.offset), cfg.minBr, cfg.maxBr)
    ensures cfg.minBr <= cfg.maxBr ==> cfg.minBr <= r.targetBr <= cfg.maxBr
    ensures r.targetBr != scrBr ==> r.callcnt == st.callcnt + 1 && r.imgDelta == st.imgDelta
    ensures r.targetBr == scrBr ==> r.callcnt == st.callcnt && r.imgDelta == 0
    ensures !r.force
    ensures r == st.(targetBr := r.targetBr, callcnt := r.callcnt, imgDelta := r.imgDelta, force := false)
  {
    var target := Clamp(RawTarget(defaultBr, st.imgBr, cfg.offset), cfg.minBr, cfg.maxBr);
    if target != scrBr then
      st.(targetBr := target, callcnt := st.callcnt + 1, force := false)
    else
      st.(targetBr := target, imgDelta := 0, force := false)
  }

  /** One polling iteration of the decision loop on a new luminance sample. */
  function Cycle(st: Ctl, sample: int, cfg: Config, defaultBr: int, scrBr: int): (r: Ctl)
    // the sample becomes both the current and the remembered luminance
    ensures r.imgBr == sample && r.oldImgBr == sample
    // the bounds and offset seen in this iteration are remembered
    ensures r.oldMin == cfg.minBr && r.oldMax == cfg.maxBr && r.oldOffset == cfg.offset
    ensures !r.first
    // a forced recompute is pending afterwards exactly when the bounds moved
    ensures r.force <==> BoundsChanged(st, cfg)
    // the first iteration never carries accumulated change forward
    ensures st.first ==> r.imgDelta == 0
    // no trigger: target and generation are untouched, the change keeps accumulating
    ensures !Triggers(Accumulate(st, sample), cfg.threshold, st.force) ==>
      r.targetBr == st.targetBr && r.callcnt == st.callcnt && r.imgDelta == Accumulate(st, sample)
    // trigger: the clamped raw target is adopted
    ensures Triggers(Accumulate(st, sample), cfg.threshold, st.force) ==>
      r.targetBr == Clamp(RawTarget(defaultBr, sample, cfg.offset), cfg.minBr, cfg.maxBr)
    ensures Triggers(Accumulate(st, sample), cfg.threshold, st.force) && r.targetBr != scrBr ==>
      r.callcnt == st.callcnt + 1 && r.imgDelta == Accumulate(st, sample)
    ensures Triggers(Accumulate(st, sample), cfg.threshold, st.force) && r.targetBr == scrBr ==>
      r.callcnt == st.callcnt && r.imgDelta == 0
    // the generation counter moves by at most one
    ensures st.callcnt <= r.callcnt <= st.callcnt + 1
  {
    var sampled := st.(imgBr := sample);
    var accumulated := sampled.(imgDelta := Accumulate(st, sample), first := false);
    var decided :=
      if Triggers(accumulated.imgDelta, cfg.threshold, st.force)
      then Decide(accumulated, cfg, defaultBr, scrBr)
      else accumulated;
    decided.(
      force := decided.force || BoundsChanged(st, cfg),
      oldImgBr := sample,
      oldMin := cfg.minBr,
      oldMax := cfg.maxBr,
      oldOffset := cfg.offset)
  }

  /** Consecutive iterations over a sequence of samples, with the
      configuration and the live brightness held fixed. */
  function Run(st: Ctl, samples: seq<int>, cfg: Config, defaultBr: int, scrBr: int): (r: Ctl)
    ensures |samples| == 0 ==> r == st
    // each iteration publishes at most one generation
    ensures st.callcnt <= r.callcnt <= st.callcnt + |samples|
    // afterwards the last sample and the configuration are the remembered ones
    ensures |samples| > 0 ==> !r.first && r.imgBr == samples[|samples| - 1] && r.oldImgBr == samples[|samples| - 1]
    ensures |samples| > 0 ==> r.oldMin == cfg.minBr && r.oldMax == cfg.maxBr && r.oldOffset == cfg.offset
    // under a fixed configuration a bound change forces a recompute in the one iteration after it, and no later
    ensures |samples| > 0 ==> (r.force <==> |samples| == 1 && BoundsChanged(st, cfg))
    decreases |samples|
  {
    if |samples| == 0 then st
    else Run(Cycle(st, samples[0], cfg, defaultBr, scrBr), samples[1..], cfg, defaultBr, scrBr)
  }

  /** The total luminance change along a sequence of samples, starting from
      the previously seen sample `prev`. */
  function Variation(prev: int, samples: seq<int>): (v: nat)
    decreases |samples|
  {
    if |samples| == 0 then 0
    else Abs(prev - samples[0]) + Variation(samples[0], samples[1..])
  }

  /** No-op stability: while the accumulated change stays within the
      threshold and neither a recompute is pending nor the bounds move, a run
      of iterations leaves the target and the generation counter alone and
      the accumulated change grows by exactly the luminance variation. */
  lemma {:induction false} QuietRun(st: Ctl, samples: seq<int>, cfg: Config, defaultBr: int, scrBr: int)
    requires !st.first && !st.force && !BoundsChanged(st, cfg)
    requires st.imgDelta + Variation(st.oldImgBr, samples) <= cfg.threshold
    ensures Run(st, samples, cfg, defaultBr, scrBr).targetBr == st.targetBr
    ensures Run(st, samples, cfg, defaultBr, scrBr).callcnt == st.callcnt
    ensures Run(st, samples, cfg, defaultBr, scrBr).imgDelta == st.imgDelta + Variation(st.oldImgBr, samples)
    ensures !Run(st, samples, cfg, defaultBr, scrBr).force
    decreases |samples|
  {
    if |samples| > 0 {
      var next := Cycle(st, samples[0], cfg, defaultBr, scrBr);
      assert !Triggers(Accumulate(st, samples[0]), cfg.threshold, st.force);
      QuietRun(next, samples[1..], cfg, defaultBr, scrBr);
    }
  }

  /** Between resets the accumulated change never decreases: at the end of
      a run that does not trigger it is at least what it was at the start. */
  lemma {:induction false} DeltaNeverDecreasesWhileQuiet(st: Ctl, samples: seq<int>, cfg: Config, defaultBr: int, scrBr: int)
    requires !st.first && !st.force && !BoundsChanged(st, cfg)
    requires st.imgDelta + Variation(st.oldImgBr, samples) <= cfg.threshold
    ensures Run(st, samples, cfg, defaultBr, scrBr).imgDelta >= st.imgDelta
  {
    QuietRun(st, samples, cfg, defaultBr, scrBr);
  }

  /** Over any run with consistent bounds, a target that starts within the
      bounds ends within them. */
  lemma {:induction false} RunTargetInBounds(st: Ctl, samples: seq<int>, cfg: Config, defaultBr: int, scrBr: int)
    requires cfg.minBr <= cfg.maxBr
    requires cfg.minBr <= st.targetBr <= cfg.maxBr
    ensures cfg.minBr <= Run(st, samples, cfg, defaultBr, scrBr).targetBr <= cfg.maxBr
    decreases |samples|
  {
    if |samples| > 0 {
      RunTargetInBounds(Cycle(st, samples[0], cfg, defaultBr, scrBr), samples[1..], cfg, defaultBr, scrBr);
    }
  }

  /** A worked case: default 110, bounds [10, 255], offset 0. A sample of 80
      gives the target 30 as computed; a sample of 150 gives the raw target
      -40, which is clamped up to 10. */
  lemma TargetExamples()
    ensures Clamp(RawTarget(110, 80, 0), 10, 255) == 30
    ensures Clamp(RawTarget(110, 150, 0), 10, 255) == 10
  {
  }

  /** A worked case with threshold 30 after a first iteration at sample 50:
      52 accumulates 2 and does not trigger, 90 brings the sum to 40 and
      triggers. The signal leaves the accumulated 40 in place; it is the
      actuator that consumes it. */
  lemma ThresholdExample()
    ensures var cfg := Config(10, 255, 0, 30);
            var st := Ctl(50, 0, 60, 0, false, 50, 10, 255, 0, false);
            var one := Cycle(st, 52, cfg, 110, 60);
            var two := Cycle(one, 90, cfg, 110, 60);
            && one.imgDelta == 2 && one.callcnt == 0 && one.targetBr == 60
            && two.imgDelta == 40 && two.callcnt == 1 && two.targetBr == 20
  {
  }
}
